=== FILE: README.md ===
# Kibana pod-template builder, modelled in Dafny

This project models how the Kibana controller of cloud-on-k8s builds the pod
template of a Kibana deployment. `NewPodTemplateSpec(kb, keystore)` layers
three fragments, in this order:

1. The default fragment. It holds one `kibana` container with its image,
   readiness probe, HTTP port, config volume mount and default resources. It
   also holds the config volume, the identity labels (name and version) and
   `automount = false`.
2. The keystore add-on, when there is one. It adds one init container and one
   volume.
3. The user's `podTemplate` from the Kibana spec.

Each slot has its own merge rule:

- Scalars and whole structs are replaced when the higher layer sets them. This
  covers the image (empty means unset), `resources`, the readiness probe and
  `automount`. So a user `resources` block replaces the default block as a
  whole.
- Labels merge key by key, and the higher layer wins.
- Containers, init containers, volumes and volume mounts are keyed by name.
  Each lower entry keeps its position and is merged with the first higher
  entry of the same name. Higher entries whose name the lower list lacks are
  appended after the lower entries, in order. Later higher entries that repeat
  a lower name are dropped.
- Env vars and ports are appended without de-duplication.

Files:

- `wrappers.dfy`: `Option`.
- `field_merge.dfy` (module `FieldMerge`): the generic merge rules.
  - `KeyedMerge` is a closed-form definition.
  - `UpsertAll` is the step-by-step "find by name, merge in place, else
    append" fold.
  - `UpsertAllIsKeyedMerge` proves the two agree when neither list repeats a
    name. `RepeatedKeysDiverge` shows that they differ when names repeat.
- `pod_template.dfy` (module `PodTemplates`): the Kubernetes records the
  builder writes, `MergeContainer` and `MergeTemplate`.
- `kibana_pod.dfy` (module `KibanaPod`): the constants, `ImageWithVersion`,
  the default and keystore fragments, `NewPodTemplateSpec`,
  `GetKibanaContainer`, and the all-inputs lemmas about the result.
- `kibana_pod_cases.dfy` (module `KibanaPodCases`): one lemma per case of the
  builder's table-driven test. Each lemma is generalised over the inputs that
  case does not depend on.

The builder's implementation file, `pkg/controller/kibana/pod/pod.go`, is not
part of this model. Neither are the defaults builder and the `label` and
`kbv1` packages. The test file fixes the observable behaviour. The merge
rules listed above are the model's reading of how the three layers combine;
every test case agrees with them. These constants are representative values,
not copied from those files:

- the container name `kibana`
- the repository `docker.elastic.co/kibana/kibana`
- the label keys
- port 5601
- the `1Gi` default resources
- the `config` volume and its mount path

The tests never depend on their exact values. They depend only on how these
constants are placed.

One choice is not fixed by any test: the order of precedence between the
user container's image and `spec.image`. No test case has a user container
with an image. The model uses this order:

1. the user container's image, when set;
2. otherwise the explicit `spec.image`, used verbatim;
3. otherwise `<repository>:<version>`.

This is a modelling choice that applies the replace-if-set rule to the image
like every other slot. The implementation is believed to put `spec.image`
first (see "## Left out").

## Model

| member | source | states |
|---|---|---|
| FieldMerge.MapOverlay | pkg/controller/kibana/pod/pod_test.go:178-184 | the merged labels hold the keys of both layers; a key of the higher layer takes the higher value, and any other key keeps the lower value |
| FieldMerge.IndexOf | pkg/controller/kibana/pod/pod_test.go:68-69 | lookup by name finds nothing exactly when no entry has that name; otherwise it points at the first entry with that name |
| FieldMerge.Lookup | pkg/controller/kibana/pod/pod_test.go:68-69 | the entry found has the requested name and is the first such entry of the list; none is found exactly when the name is absent |
| FieldMerge.KeyedMerge | pkg/controller/kibana/pod/pod_test.go:210-236 | the merged list keeps every lower entry at its position, each merged with the higher entry of the same name when there is one; at most the higher entries are added after them |
| FieldMerge.OverlayLaws | pkg/controller/kibana/pod/pod_test.go:103-139 | replace-if-set layering is associative, an unset layer changes nothing, and the result is unset only when both layers are unset |
| FieldMerge.UpsertMergesInPlace | pkg/controller/kibana/pod/pod_test.go:113-139 | a higher entry whose name is present is merged into the first entry with that name, at its position, and nothing else changes |
| FieldMerge.UpsertAppends | pkg/controller/kibana/pod/pod_test.go:210-236 | a higher entry with a new name is appended at the end |
| FieldMerge.UpsertAllIsKeyedMerge | pkg/controller/kibana/pod/pod_test.go:210-236 | on lists with unique names, the step-by-step fold (find by name, merge in place, else append) equals the closed form: lower entries merged with their matches, then the new higher entries in order |
| FieldMerge.KeyedMergeAppends | pkg/controller/kibana/pod/pod_test.go:210-236 | when no higher name occurs in the lower list, the result is the lower list followed by the higher list: entries are appended, not substituted |
| FieldMerge.KeyedMergeKeys | pkg/controller/kibana/pod/pod_test.go:141-157 | the lower names keep their positions at the front; a name occurs in the result exactly when it occurs in either layer |
| FieldMerge.KeyedMergeUnique | pkg/controller/kibana/pod/pod_test.go:210-236 | merging two lists with unique names gives a list with unique names |
| FieldMerge.KeyedMergeRightIdentity | pkg/controller/kibana/pod/pod_test.go:55-67 | merging with an empty higher list leaves the lower list unchanged |
| FieldMerge.KeyedMergeLeftIdentity | pkg/controller/kibana/pod/pod_test.go:141-157 | merging any list into an empty list yields that list, repeated names included |
| FieldMerge.RepeatedKeysDiverge | pkg/controller/kibana/pod/pod_test.go:210-236 | with two higher entries of one name, the closed form keeps both when the name is new and keeps only the first merged into the lower entry when it is not; the fold merges the second into the first in both cases |
| FieldMerge.FreshKeys | pkg/controller/kibana/pod/pod_test.go:210-236 | a name is among the appended entries exactly when a higher entry has it and the lower layer lacks it |
| FieldMerge.FreshInOrder | pkg/controller/kibana/pod/pod_test.go:210-236 | the appended entries are the higher entries whose name the lower layer lacks, in the higher layer's order: one entry is kept exactly when its name is new, and the filter distributes over concatenation |
| PodTemplates.MergeContainer | pkg/controller/kibana/pod/pod_test.go:113-139 | the merged container keeps the lower name; a set image, resources block or probe of the higher layer wins as a whole, an unset one keeps the lower value; env and ports are the lower entries followed by the higher ones; the mounts keep every lower mount at its position, replaced by the first higher mount of the same name, and gain at most the higher mounts |
| PodTemplates.MergeTemplate | pkg/controller/kibana/pod/pod_test.go:159-185 | labels hold the keys of both layers, the higher layer's value winning; the higher automount wins when set, else the lower one is kept; containers, init containers and volumes keep every lower entry at its position, merged with the first higher entry of the same name, and gain at most the higher entries |
| PodTemplates.MergeContainerBareOverride | pkg/controller/kibana/pod/pod_test.go:113-139 | a user container that only gives its name leaves the default container unchanged |
| PodTemplates.MergeTemplateRightIdentity | pkg/controller/kibana/pod/pod_test.go:55-74 | an empty user template leaves the lower fragment unchanged |
| PodTemplates.MergeTemplateLeftIdentity | pkg/controller/kibana/pod/pod_test.go:141-157 | layering any template over the empty template yields that template |
| PodTemplates.MergeTemplateWellFormed | pkg/controller/kibana/pod/pod_test.go:113-131 | layering keeps names unique: containers, init containers, volumes, and the mounts of each container |
| PodTemplates.MergeTemplateNames | pkg/controller/kibana/pod/pod_test.go:141-157 | a container, init container or volume name is in the result exactly when either layer has it |
| KibanaPod.ImageWithVersion | pkg/controller/kibana/pod/pod_test.go:21-46 | the reference is the image, one ':' and the version, in that order and nothing else |
| KibanaPod.DefaultImage | pkg/controller/kibana/pod/pod_test.go:92-101 | the default image is never empty; an explicit image is used verbatim, otherwise it is the default repository, a ':' and the version |
| KibanaPod.DefaultContainer | pkg/controller/kibana/pod/pod_test.go:55-74 | the default container is named `kibana`, always has an image (the explicit one when given), the default resources, no env, one mount for the config volume, a readiness probe and the HTTP port first |
| KibanaPod.DefaultFragment | pkg/controller/kibana/pod/pod_test.go:55-74 | the defaults hold the default container only, exactly the name and version labels with the Kibana name and version, one volume named `config`, no init containers, and automount false |
| KibanaPod.DefaultFragmentWellFormed | pkg/controller/kibana/pod/pod_test.go:55-74 | the defaults have unique names, and the Kibana container found in them is the default container |
| KibanaPod.KeystoreLayerShape | pkg/controller/kibana/pod/pod_test.go:76-90 | the keystore add-on, layered over any fragment, keeps its labels, containers and automount, and merges its init container and volume by name into the fragment's lists |
| KibanaPod.KeystoreLayerAppends | pkg/controller/kibana/pod/pod_test.go:76-90 | a keystore init container or volume whose name the fragment lacks is appended after the fragment's own entries |
| KibanaPod.WithAddOnsShape | pkg/controller/kibana/pod/pod_test.go:55-90 | defaults plus the keystore: the identity labels, the default container only, the keystore's init container if any, the config volume merged by name with the keystore volume, and automount false |
| KibanaPod.NewPodTemplateSpec | pkg/controller/kibana/pod/pod_test.go:241 | for every Kibana and keystore, the template decides automount, carries the name and version labels, and keeps every user label with the user's value |
| KibanaPod.GetKibanaContainer | pkg/controller/kibana/pod/pod_test.go:68-69 | returns the first container of the pod named `kibana`; returns none exactly when no container has that name |
| KibanaPod.SplitImageWithVersion | pkg/controller/kibana/pod/pod_test.go:21-46 | splitting `ImageWithVersion(i, v)` at its last ':' gives back `(i, v)` whenever the version has no ':' |
| KibanaPod.IdentityLabels | pkg/controller/kibana/pod/pod_test.go:179-180 | the computed labels are exactly the name label (the Kibana name) and the version label (the version) |
| KibanaPod.KibanaContainerOfResult | pkg/controller/kibana/pod/pod_test.go:113-139 | the final Kibana container comes first; it is the default container merged with the user's container of the same name, or the default container alone when the user has none |
| KibanaPod.KibanaImage | pkg/controller/kibana/pod/pod_test.go:92-101 | image order of precedence: user container image, else the explicit image verbatim, else the default repository at the version |
| KibanaPod.KibanaResources | pkg/controller/kibana/pod/pod_test.go:103-139 | a user resources block is kept as a whole; with no user block the container gets `DefaultResources` |
| KibanaPod.KibanaEnv | pkg/controller/kibana/pod/pod_test.go:187-208 | the final env is exactly the user's env, because the default env is empty |
| KibanaPod.KibanaMounts | pkg/controller/kibana/pod/pod_test.go:210-236 | the mounts are the config mount merged by name with the user's mounts; user mounts with new names come after the config mount |
| KibanaPod.KibanaReady | pkg/controller/kibana/pod/pod_test.go:72-73 | for every input, the Kibana container has a readiness probe and its first port is the HTTP port |
| KibanaPod.PodLabels | pkg/controller/kibana/pod/pod_test.go:159-185 | the labels are the identity labels overlaid by the user's labels; the user wins on every shared key, including name and version |
| KibanaPod.PodAutomount | pkg/controller/kibana/pod/pod_test.go:64 | automount is false unless the user template sets it, in which case the user's value is used |
| KibanaPod.PodContainers | pkg/controller/kibana/pod/pod_test.go:65 | the containers are exactly the merged Kibana container, followed by the user containers whose name is not `kibana`, in the user's order |
| KibanaPod.PodInitContainers | pkg/controller/kibana/pod/pod_test.go:141-157 | when no name clashes, the init containers are the keystore's followed by the user's |
| KibanaPod.PodVolumes | pkg/controller/kibana/pod/pod_test.go:76-90 | when no name clashes, the volumes are the config volume, then the keystore volume, then the user's volumes |
| KibanaPod.KeystoreVolumeCount | pkg/controller/kibana/pod/pod_test.go:83-89 | with no user volumes, the keystore gives two volumes exactly when its volume name differs from the config volume's; otherwise it replaces the config volume |
| KibanaPod.PodWellFormed | pkg/controller/kibana/pod/pod_test.go:113-131 | a well-formed user template, and a keystore init container whose mount names are unique, yield a final template whose names are unique |
| KibanaPod.UserContributionsKept | pkg/controller/kibana/pod/pod_test.go:141-236 | every user label is kept with the user's value, and the name of every user container, init container and volume is present |
| KibanaPodCases.ImageWithVersionCases | pkg/controller/kibana/pod/pod_test.go:31-38 | `someimage` at `6.4.2` and `differentimage` at `6.4.1` give the expected references |
| KibanaPodCases.DefaultsCase | pkg/controller/kibana/pod/pod_test.go:55-74 | with no keystore and no user template: automount false, 1 container, 0 init containers, 1 volume, a Kibana container with 1 mount, the default image at the version, a probe and ports |
| KibanaPodCases.KeystoreCase | pkg/controller/kibana/pod/pod_test.go:76-90 | a keystore gives 1 init container and 2 volumes |
| KibanaPodCases.CustomImageCase | pkg/controller/kibana/pod/pod_test.go:92-101 | an explicit image is used verbatim, with no version suffix |
| KibanaPodCases.DefaultResourcesCase | pkg/controller/kibana/pod/pod_test.go:103-111 | with no user block, the Kibana container has `DefaultResources` |
| KibanaPodCases.UserResourcesCase | pkg/controller/kibana/pod/pod_test.go:113-139 | a limits-only user block yields exactly those limits and no default requests |
| KibanaPodCases.UserInitContainersCase | pkg/controller/kibana/pod/pod_test.go:141-157 | one user init container and no keystore give one init container |
| KibanaPodCases.UserLabelsCase | pkg/controller/kibana/pod/pod_test.go:159-185 | the final labels equal the test's expected map, where the user's name label overrides the computed one |
| KibanaPodCases.UserEnvCase | pkg/controller/kibana/pod/pod_test.go:187-208 | one user env var gives an env of length 1 |
| KibanaPodCases.UserVolumesCase | pkg/controller/kibana/pod/pod_test.go:210-236 | one user volume and one user mount give 2 volumes and 2 mounts |

## Left out

- KeyedMerge: when the higher list repeats a name, only the first entry with a lower name is merged and later ones are dropped, while every repeat of a new name is appended. The lemmas relating the merge to the fold, and those about unique names, therefore require unique names (`UniqueKeys`); `RepeatedKeysDiverge` states the difference.
- KibanaImage: the precedence of the user container's image over `spec.image` is a modelling choice that no test fixes. The implementation's image setter is believed to let `spec.image` win over the pod-template container's image; `pod.go` is not part of this model, so that order is not modelled.
- Resource quantities are opaque `Quantity` values. Parsing them, as `resource.MustParse` does, belongs to a foreign library.
- Probes and ports are opaque. The model only shows that a readiness probe is present and that the ports are non-empty. The HTTP scheme of the probe, which depends on TLS settings, is not modelled.
- `label.NewLabels` is modelled only as producing the name label. The label package is not part of this model.
- How the keystore init container and volume are built is not modelled. The model only uses their shape: one init container and one volume.
- Errors are not modelled. `NewPodTemplateSpec` has no error result (pkg/controller/kibana/pod/pod_test.go:241). Malformed resource blocks, unknown preset keys and conflicting container names are therefore not reported.
- The preset registry (apply a named preset at most once per target) is not modelled. No source for it is part of this model.
- The configuration-document merge (nested vars, where the user overrides at every depth and replaces leaves whole) is not modelled, for the same reason.
- Submitting the template to the cluster, logging and any other I/O are not modelled.
- Pod and container fields that the builder never sets are not part of the records.
- UserVolumesCase: the test's volume and mount carry only a name. The lemma holds for any volume and mount with those names.
- KeystoreCase: the lemma requires the keystore volume's name to differ from `config`. This holds in the test, whose volume is named `vol`. The name clash is covered by `KibanaPod.KeystoreVolumeCount`.

=== FILE: field_merge.dfy ===
/**
  The field merge rules used to layer one pod-template fragment over another:

  - replace-if-set for scalar and single-struct slots (`Overlay`),
  - key-by-key overlay for map slots, the higher layer winning (`MapOverlay`),
  - keyed-list merge for slots whose entries are identified by a name
    (`KeyedMerge`): each lower entry keeps its position at the front and is
    merged with the first higher entry carrying its key, and the higher
    entries whose key the lower list lacks are appended in order.

  `KeyedMerge` is defined in closed form; `UpsertAll` is the step-by-step
  "find by name, merge in place, else append" fold, and
  `UpsertAllIsKeyedMerge` proves that the two agree when neither list repeats
  a key. With repeated higher keys they differ: `KeyedMerge` drops later
  higher entries whose key the lower list holds and appends every repeat of
  a new key, while the fold merges each repeat into the entry already there.
 */
module FieldMerge {
  import opened Wrappers

  /** Replace-if-set: a slot the higher layer sets wins as a whole. */
  function Overlay<T>(lower: Option<T>, higher: Option<T>): Option<T>
  {
    if higher.Some? then higher else lower
  }

  /** Keyed entries with no fields of their own to merge: the higher layer's entry replaces the lower one. */
  function Replace<T>(lower: T, higher: T): T
  {
    higher
  }

  /** Map slots: every key of the higher layer overwrites the lower layer's value. */
  function MapOverlay<K, V>(lower: map<K, V>, higher: map<K, V>): (r: map<K, V>)
    ensures r.Keys == lower.Keys + higher.Keys
    ensures forall k :: k in higher ==> r[k] == higher[k]
    ensures forall k :: k in lower && k !in higher ==> r[k] == lower[k]
  {
    lower + higher
  }

  /** The keys of a keyed list, in list order. */
  function KeysOf<T, K>(s: seq<T>, key: T -> K): (ks: seq<K>)
    ensures |ks| == |s|
    ensures forall i :: 0 <= i < |s| ==> ks[i] == key(s[i])
  {
    if |s| == 0 then [] else [key(s[0])] + KeysOf(s[1..], key)
  }

  /** No two entries of the list share a key. */
  predicate UniqueKeys<T, K(==)>(s: seq<T>, key: T -> K)
  {
    forall i, j :: 0 <= i < j < |s| ==> key(s[i]) != key(s[j])
  }

  /** Merging two entries with the same key yields an entry with that key. */
  ghost predicate KeyPreserving<T(!new), K>(key: T -> K, combine: (T, T) -> T)
  {
    forall a, b :: key(a) == key(b) ==> key(combine(a, b)) == key(a)
  }

  /** Position of the first entry with key `k`. */
  function IndexOf<T, K(==)>(s: seq<T>, key: T -> K, k: K): (r: Option<nat>)
    ensures r.None? <==> k !in KeysOf(s, key)
    ensures r.Some? ==> r.value < |s| && key(s[r.value]) == k
    ensures r.Some? ==> forall j :: 0 <= j < r.value ==> key(s[j]) != k
  {
    if |s| == 0 then None
    else if key(s[0]) == k then Some(0)
    else
      assert KeysOf(s, key) == [key(s[0])] + KeysOf(s[1..], key);
      match IndexOf(s[1..], key, k)
      case None => None
      case Some(i) => Some(i + 1)
  }

  /** The first entry with key `k`, if any. */
  function Lookup<T, K(==)>(s: seq<T>, key: T -> K, k: K): (r: Option<T>)
    ensures r.None? <==> k !in KeysOf(s, key)
    ensures r.Some? ==> key(r.value) == k
    ensures r.Some? ==> IndexOf(s, key, k).Some? && r.value == s[IndexOf(s, key, k).value]
  {
    match IndexOf(s, key, k)
    case None => None
    case Some(i) => Some(s[i])
  }

  /** `x`, merged with its higher-layer counterpart when there is one. */
  function Absorb<T>(x: T, counterpart: Option<T>, combine: (T, T) -> T): T
  {
    match counterpart
    case None => x
    case Some(y) => combine(x, y)
  }

  /** Every lower entry, merged in place with the higher entry sharing its key. */
  function MergeMatching<T, K(==)>(lower: seq<T>, higher: seq<T>, key: T -> K, combine: (T, T) -> T): (r: seq<T>)
    ensures |r| == |lower|
    ensures forall i :: 0 <= i < |lower| ==>
      r[i] == Absorb(lower[i], Lookup(higher, key, key(lower[i])), combine)
  {
    seq(|lower|, i requires 0 <= i < |lower| => Absorb(lower[i], Lookup(higher, key, key(lower[i])), combine))
  }

  /** The entries of `higher` whose key is not among `lowerKeys`, in order. */
  function Fresh<T, K(==)>(lowerKeys: seq<K>, higher: seq<T>, key: T -> K): (r: seq<T>)
    ensures |r| <= |higher|
  {
    if |higher| == 0 then []
    else (if key(higher[0]) in lowerKeys then [] else [higher[0]]) + Fresh(lowerKeys, higher[1..], key)
  }

  /**
    Keyed-list merge: lower entries first, each merged in place with the
    higher entry sharing its key, then the higher entries with new keys.
   */
  function KeyedMerge<T, K(==)>(lower: seq<T>, higher: seq<T>, key: T -> K, combine: (T, T) -> T): (r: seq<T>)
    ensures |lower| <= |r| <= |lower| + |higher|
    ensures forall i :: 0 <= i < |lower| ==> r[i] == Absorb(lower[i], Lookup(higher, key, key(lower[i])), combine)
  {
    MergeMatching(lower, higher, key, combine) + Fresh(KeysOf(lower, key), higher, key)
  }

  /** One step of the builder: merge `x` into the entry with its key, or append it. */
  function Upsert<T, K(==)>(s: seq<T>, x: T, key: T -> K, combine: (T, T) -> T): seq<T>
  {
    if |s| == 0 then [x]
    else if key(s[0]) == key(x) then [combine(s[0], x)] + s[1..]
    else [s[0]] + Upsert(s[1..], x, key, combine)
  }

  /** The step-by-step merge: upsert the higher entries one at a time, in order. */
  function UpsertAll<T, K(==)>(lower: seq<T>, higher: seq<T>, key: T -> K, combine: (T, T) -> T): seq<T>
    decreases |higher|
  {
    if |higher| == 0 then lower
    else UpsertAll(Upsert(lower, higher[0], key, combine), higher[1..], key, combine)
  }

  // ---------------------------------------------------------------------------
  // Lemmas about the keyed-list merge
  // ---------------------------------------------------------------------------

  lemma KeysOfAppend<T, K>(a: seq<T>, b: seq<T>, key: T -> K)
    ensures KeysOf(a + b, key) == KeysOf(a, key) + KeysOf(b, key)
  {
  }

  /** Appending one entry appends its key. */
  lemma KeysOfSnoc<T, K>(s: seq<T>, x: T, key: T -> K)
    ensures KeysOf(s + [x], key) == KeysOf(s, key) + [key(x)]
  {
    KeysOfAppend(s, [x], key);
    assert KeysOf([x], key) == [key(x)] + KeysOf([], key);
  }

  /** A key occurs in a list exactly when some entry has it. */
  lemma InKeysOf<T, K>(s: seq<T>, key: T -> K, k: K)
    ensures k in KeysOf(s, key) <==> exists i :: 0 <= i < |s| && key(s[i]) == k
  {
    if k in KeysOf(s, key) {
      var i :| 0 <= i < |s| && KeysOf(s, key)[i] == k;
    }
  }

  /** Looking past an entry with a different key does not change the lookup. */
  lemma LookupSkip<T, K>(s: seq<T>, key: T -> K, k: K)
    requires |s| > 0 && key(s[0]) != k
    ensures Lookup(s, key, k) == Lookup(s[1..], key, k)
  {
  }

  /** An entry with a new key is kept exactly when the lower layer lacks its key. */
  lemma {:induction false} FreshKeys<T, K>(lowerKeys: seq<K>, higher: seq<T>, key: T -> K, k: K)
    ensures k in KeysOf(Fresh(lowerKeys, higher, key), key) <==> k in KeysOf(higher, key) && k !in lowerKeys
    decreases |higher|
  {
    if |higher| > 0 {
      FreshKeys(lowerKeys, higher[1..], key, k);
      var head := if key(higher[0]) in lowerKeys then [] else [higher[0]];
      KeysOfAppend(head, Fresh(lowerKeys, higher[1..], key), key);
      assert KeysOf(higher, key) == [key(higher[0])] + KeysOf(higher[1..], key);
    }
  }

  /**
    The fresh entries are a filter of `higher` that keeps its order: each
    entry stays exactly when its key is new, and splitting `higher` splits
    the result at the same point.
   */
  lemma {:induction false} FreshInOrder<T, K>(lowerKeys: seq<K>, a: seq<T>, b: seq<T>, key: T -> K)
    ensures Fresh(lowerKeys, a + b, key) == Fresh(lowerKeys, a, key) + Fresh(lowerKeys, b, key)
    ensures forall x :: Fresh(lowerKeys, [x], key) == if key(x) in lowerKeys then [] else [x]
    decreases |a|
  {
    if |a| > 0 {
      assert (a + b)[0] == a[0] && (a + b)[1..] == a[1..] + b;
      FreshInOrder(lowerKeys, a[1..], b, key);
    } else {
      assert a + b == b;
    }
    forall x ensures Fresh(lowerKeys, [x], key) == if key(x) in lowerKeys then [] else [x] {
      assert [x][1..] == [];
    }
  }

  /** Every fresh entry is an entry of `higher`, so any property of all of them carries over. */
  lemma {:induction false} FreshFrom<T, K>(lowerKeys: seq<K>, higher: seq<T>, key: T -> K, p: T -> bool)
    requires forall j :: 0 <= j < |higher| ==> p(higher[j])
    ensures forall i :: 0 <= i < |Fresh(lowerKeys, higher, key)| ==> p(Fresh(lowerKeys, higher, key)[i])
    decreases |higher|
  {
    if |higher| > 0 {
      FreshFrom(lowerKeys, higher[1..], key, p);
    }
  }

  /** Filtering a list with unique keys leaves unique keys. */
  lemma {:induction false} FreshUnique<T, K>(lowerKeys: seq<K>, higher: seq<T>, key: T -> K)
    requires UniqueKeys(higher, key)
    ensures UniqueKeys(Fresh(lowerKeys, higher, key), key)
    decreases |higher|
  {
    if |higher| > 0 {
      var rest := Fresh(lowerKeys, higher[1..], key);
      FreshUnique(lowerKeys, higher[1..], key);
      if key(higher[0]) !in lowerKeys {
        FreshKeys(lowerKeys, higher[1..], key, key(higher[0]));
        assert key(higher[0]) !in KeysOf(higher[1..], key);
        forall j | 0 <= j < |rest| ensures key(rest[j]) != key(higher[0]) {
          assert KeysOf(rest, key)[j] == key(rest[j]);
        }
      }
    }
  }

  /** When every entry of `higher` is new, all of them are appended. */
  lemma {:induction false} FreshAllNew<T, K>(lowerKeys: seq<K>, higher: seq<T>, key: T -> K)
    requires forall j :: 0 <= j < |higher| ==> key(higher[j]) !in lowerKeys
    ensures Fresh(lowerKeys, higher, key) == higher
    decreases |higher|
  {
    if |higher| > 0 {
      FreshAllNew(lowerKeys, higher[1..], key);
    }
  }

  /** A lower key that `higher` never mentions does not affect which entries are new. */
  lemma {:induction false} FreshIgnoresUnusedKey<T, K>(lowerKeys: seq<K>, k: K, higher: seq<T>, key: T -> K)
    requires k !in KeysOf(higher, key)
    ensures Fresh(lowerKeys + [k], higher, key) == Fresh(lowerKeys, higher, key)
    decreases |higher|
  {
    if |higher| > 0 {
      assert KeysOf(higher, key) == [key(higher[0])] + KeysOf(higher[1..], key);
      FreshIgnoresUnusedKey(lowerKeys, k, higher[1..], key);
    }
  }

  /**
    Replace-if-set layers group either way, and an unset layer changes
    nothing: defaults, add-on and user layer can be folded in any grouping.
   */
  lemma OverlayLaws<T>(a: Option<T>, b: Option<T>, c: Option<T>)
    ensures Overlay(Overlay(a, b), c) == Overlay(a, Overlay(b, c))
    ensures Overlay(a, None) == a && Overlay(None, a) == a
    ensures Overlay(a, b).None? <==> a.None? && b.None?
  {
  }

  /** Merging with an empty higher layer changes nothing. */
  lemma KeyedMergeRightIdentity<T, K>(lower: seq<T>, key: T -> K, combine: (T, T) -> T)
    ensures KeyedMerge(lower, [], key, combine) == lower
  {
    assert MergeMatching(lower, [], key, combine) == lower;
  }

  /** A one-entry lower layer: its entry, merged with its match, then the higher entries with other keys. */
  lemma KeyedMergeSingle<T, K>(x: T, higher: seq<T>, key: T -> K, combine: (T, T) -> T)
    ensures KeyedMerge([x], higher, key, combine) ==
      [Absorb(x, Lookup(higher, key, key(x)), combine)] + Fresh([key(x)], higher, key)
  {
    assert KeysOf([x], key) == [key(x)];
    assert MergeMatching([x], higher, key, combine) == [Absorb(x, Lookup(higher, key, key(x)), combine)];
  }

  /** Merging into an empty lower layer yields the higher layer, repeated keys included. */
  lemma KeyedMergeLeftIdentity<T, K>(higher: seq<T>, key: T -> K, combine: (T, T) -> T)
    ensures KeyedMerge([], higher, key, combine) == higher
  {
    FreshAllNew([], higher, key);
  }

  /**
    Repeated higher keys: the closed form keeps only the first match of a
    lower key and appends every repeat of a new key, while the fold merges
    each repeat into the entry already there. This is why the lemmas relating
    the two ask for unique keys.
   */
  lemma RepeatedKeysDiverge<T(!new), K>(l: T, x: T, y: T, key: T -> K, combine: (T, T) -> T)
    requires KeyPreserving(key, combine)
    requires key(x) == key(y)
    ensures KeyedMerge([], [x, y], key, combine) == [x, y]
    ensures UpsertAll([], [x, y], key, combine) == [combine(x, y)]
    ensures key(l) == key(x) ==> KeyedMerge([l], [x, y], key, combine) == [combine(l, x)]
    ensures key(l) == key(x) ==> UpsertAll([l], [x, y], key, combine) == [combine(combine(l, x), y)]
  {
    KeyedMergeLeftIdentity([x, y], key, combine);
    assert [x, y][1..] == [y] && [y][1..] == [];
    assert Upsert([], x, key, combine) == [x];
    assert Upsert([x], y, key, combine) == [combine(x, y)];
    assert UpsertAll([], [x, y], key, combine) == UpsertAll([x], [y], key, combine);
    if key(l) == key(x) {
      assert Upsert([l], x, key, combine) == [combine(l, x)];
      assert key(combine(l, x)) == key(y);
      assert Upsert([combine(l, x)], y, key, combine) == [combine(combine(l, x), y)] + [];
      assert UpsertAll([l], [x, y], key, combine) == UpsertAll([combine(l, x)], [y], key, combine);
      KeyedMergeSingle(l, [x, y], key, combine);
      assert Lookup([x, y], key, key(l)) == Some(x);
      assert Fresh([key(l)], [y], key) == [];
    }
  }

  /** Entries with new keys are appended, not substituted: disjoint keys concatenate. */
  lemma KeyedMergeAppends<T, K>(lower: seq<T>, higher: seq<T>, key: T -> K, combine: (T, T) -> T)
    requires forall j :: 0 <= j < |higher| ==> key(higher[j]) !in KeysOf(lower, key)
    ensures KeyedMerge(lower, higher, key, combine) == lower + higher
  {
    FreshAllNew(KeysOf(lower, key), higher, key);
    forall i | 0 <= i < |lower|
      ensures MergeMatching(lower, higher, key, combine)[i] == lower[i]
    {
      assert KeysOf(lower, key)[i] == key(lower[i]);
      forall j | 0 <= j < |higher| ensures KeysOf(higher, key)[j] != key(lower[i]) {
        assert key(higher[j]) !in KeysOf(lower, key);
      }
      assert key(lower[i]) !in KeysOf(higher, key);
    }
    assert MergeMatching(lower, higher, key, combine) == lower;
  }

  /** The merged list's keys: lower keys in their positions, and exactly the keys of both layers. */
  lemma KeyedMergeKeys<T(!new), K>(lower: seq<T>, higher: seq<T>, key: T -> K, combine: (T, T) -> T, k: K)
    requires KeyPreserving(key, combine)
    ensures var r := KeyedMerge(lower, higher, key, combine);
      |r| >= |lower| && KeysOf(r, key)[..|lower|] == KeysOf(lower, key)
    ensures k in KeysOf(KeyedMerge(lower, higher, key, combine), key) <==>
      k in KeysOf(lower, key) || k in KeysOf(higher, key)
  {
    var m := MergeMatching(lower, higher, key, combine);
    var f := Fresh(KeysOf(lower, key), higher, key);
    KeysOfAppend(m, f, key);
    assert KeysOf(m, key) == KeysOf(lower, key);
    FreshKeys(KeysOf(lower, key), higher, key, k);
  }

  /** Merging two lists with unique keys yields a list with unique keys. */
  lemma KeyedMergeUnique<T(!new), K>(lower: seq<T>, higher: seq<T>, key: T -> K, combine: (T, T) -> T)
    requires KeyPreserving(key, combine)
    requires UniqueKeys(lower, key) && UniqueKeys(higher, key)
    ensures UniqueKeys(KeyedMerge(lower, higher, key, combine), key)
  {
    var m := MergeMatching(lower, higher, key, combine);
    var f := Fresh(KeysOf(lower, key), higher, key);
    var r := m + f;
    FreshUnique(KeysOf(lower, key), higher, key);
    forall i, j | 0 <= i < j < |r| ensures key(r[i]) != key(r[j]) {
      if j < |m| {
        assert key(r[i]) == key(lower[i]) && key(r[j]) == key(lower[j]);
      } else if i >= |m| {
        assert r[i] == f[i - |m|] && r[j] == f[j - |m|];
      } else {
        FreshKeys(KeysOf(lower, key), higher, key, key(r[j]));
        assert KeysOf(f, key)[j - |m|] == key(r[j]);
        assert KeysOf(lower, key)[i] == key(r[i]);
      }
    }
  }

  /** Upsert appends `x` when no entry has its key. */
  lemma {:induction false} UpsertAppends<T, K>(s: seq<T>, x: T, key: T -> K, combine: (T, T) -> T)
    requires key(x) !in KeysOf(s, key)
    ensures Upsert(s, x, key, combine) == s + [x]
    decreases |s|
  {
    if |s| > 0 {
      assert KeysOf(s, key) == [key(s[0])] + KeysOf(s[1..], key);
      UpsertAppends(s[1..], x, key, combine);
      assert [s[0]] + (s[1..] + [x]) == s + [x];
    }
  }

  /** Upsert merges `x` in place into the first entry with its key. */
  lemma {:induction false} UpsertMergesInPlace<T, K>(s: seq<T>, x: T, key: T -> K, combine: (T, T) -> T)
    requires key(x) in KeysOf(s, key)
    ensures IndexOf(s, key, key(x)).Some?
    ensures var i := IndexOf(s, key, key(x)).value;
      Upsert(s, x, key, combine) == s[i := combine(s[i], x)]
    decreases |s|
  {
    assert |s| > 0;
    if key(s[0]) == key(x) {
      assert Upsert(s, x, key, combine) == s[0 := combine(s[0], x)];
    } else {
      assert KeysOf(s, key) == [key(s[0])] + KeysOf(s[1..], key);
      UpsertMergesInPlace(s[1..], x, key, combine);
      var i := IndexOf(s[1..], key, key(x)).value;
      assert IndexOf(s, key, key(x)) == Some(i + 1);
      var merged := combine(s[i + 1], x);
      var tail := Upsert(s[1..], x, key, combine);
      assert tail == s[1..][i := merged];
      assert Upsert(s, x, key, combine) == [s[0]] + tail;
      forall j | 0 <= j < |s| ensures ([s[0]] + tail)[j] == s[i + 1 := merged][j] {
        if j > 0 {
          assert ([s[0]] + tail)[j] == tail[j - 1];
        }
      }
    }
  }

  /** Upsert merges `x` into the first entry with its key, or appends it when there is none. */
  lemma UpsertShape<T, K>(s: seq<T>, x: T, key: T -> K, combine: (T, T) -> T)
    ensures key(x) !in KeysOf(s, key) ==> Upsert(s, x, key, combine) == s + [x]
    ensures key(x) in KeysOf(s, key) ==>
      var i := IndexOf(s, key, key(x)).value;
      Upsert(s, x, key, combine) == s[i := combine(s[i], x)]
  {
    if key(x) in KeysOf(s, key) {
      UpsertMergesInPlace(s, x, key, combine);
    } else {
      UpsertAppends(s, x, key, combine);
    }
  }

  /** Upserting into a list with unique keys keeps its keys unique and adds at most `x`'s key. */
  lemma UpsertKeys<T(!new), K>(s: seq<T>, x: T, key: T -> K, combine: (T, T) -> T)
    requires KeyPreserving(key, combine)
    requires UniqueKeys(s, key)
    ensures UniqueKeys(Upsert(s, x, key, combine), key)
    ensures key(x) in KeysOf(s, key) ==> KeysOf(Upsert(s, x, key, combine), key) == KeysOf(s, key)
    ensures key(x) !in KeysOf(s, key) ==> KeysOf(Upsert(s, x, key, combine), key) == KeysOf(s, key) + [key(x)]
  {
    var r := Upsert(s, x, key, combine);
    UpsertShape(s, x, key, combine);
    if key(x) in KeysOf(s, key) {
      var i := IndexOf(s, key, key(x)).value;
      assert key(r[i]) == key(s[i]);
      assert KeysOf(r, key) == KeysOf(s, key);
    } else {
      KeysOfAppend(s, [x], key);
      forall i | 0 <= i < |s| ensures key(s[i]) != key(x) {
        assert KeysOf(s, key)[i] == key(s[i]);
      }
    }
  }

  /** Each lower entry meets the same counterpart in `higher` as in `higher[1..]` unless it has `higher[0]`'s key. */
  lemma MergeMatchingSkip<T, K>(lower: seq<T>, higher: seq<T>, key: T -> K, combine: (T, T) -> T, i: nat)
    requires |higher| > 0 && i < |lower| && key(lower[i]) != key(higher[0])
    ensures MergeMatching(lower, higher, key, combine)[i] == MergeMatching(lower, higher[1..], key, combine)[i]
  {
    LookupSkip(higher, key, key(lower[i]));
  }

  /** In a list with unique keys, the head's key does not occur again in the tail. */
  lemma HeadKeyNotInTail<T, K>(s: seq<T>, key: T -> K)
    requires |s| > 0 && UniqueKeys(s, key)
    ensures key(s[0]) !in KeysOf(s[1..], key)
  {
    InKeysOf(s[1..], key, key(s[0]));
    forall j | 0 <= j < |s| - 1 ensures key(s[1..][j]) != key(s[0]) {
      assert s[1..][j] == s[j + 1];
    }
  }

  /**
    The fold's step for a higher entry whose key the lower list holds: it is
    merged in place, which is what the closed form does at that position.
   */
  lemma MergeMatchingKnownStep<T(!new), K>(lower: seq<T>, higher: seq<T>, key: T -> K, combine: (T, T) -> T)
    requires KeyPreserving(key, combine)
    requires |higher| > 0 && UniqueKeys(lower, key)
    requires key(higher[0]) in KeysOf(lower, key) && key(higher[0]) !in KeysOf(higher[1..], key)
    ensures MergeMatching(Upsert(lower, higher[0], key, combine), higher[1..], key, combine) ==
      MergeMatching(lower, higher, key, combine)
  {
    var h, rest := higher[0], higher[1..];
    UpsertMergesInPlace(lower, h, key, combine);
    var i := IndexOf(lower, key, key(h)).value;
    var next := Upsert(lower, h, key, combine);
    assert next == lower[i := combine(lower[i], h)];
    var left := MergeMatching(next, rest, key, combine);
    var right := MergeMatching(lower, higher, key, combine);
    forall j | 0 <= j < |lower| ensures left[j] == right[j] {
      if j == i {
        assert key(next[i]) == key(h);
        assert Lookup(rest, key, key(h)).None?;
        assert Lookup(higher, key, key(h)) == Some(h);
      } else {
        assert key(lower[j]) != key(lower[i]);
        MergeMatchingSkip(lower, higher, key, combine, j);
      }
    }
  }

  /**
    The fold's step for a higher entry with a new key: it is appended, and it
    changes no lower entry's counterpart.
   */
  lemma MergeMatchingFreshStep<T, K>(lower: seq<T>, higher: seq<T>, key: T -> K, combine: (T, T) -> T)
    requires |higher| > 0
    requires key(higher[0]) !in KeysOf(lower, key) && key(higher[0]) !in KeysOf(higher[1..], key)
    ensures MergeMatching(lower + [higher[0]], higher[1..], key, combine) ==
      MergeMatching(lower, higher, key, combine) + [higher[0]]
  {
    var h, rest := higher[0], higher[1..];
    var left := MergeMatching(lower + [h], rest, key, combine);
    var right := MergeMatching(lower, higher, key, combine) + [h];
    forall j | 0 <= j < |lower| + 1 ensures left[j] == right[j] {
      if j < |lower| {
        assert KeysOf(lower, key)[j] == key(lower[j]);
        MergeMatchingSkip(lower, higher, key, combine, j);
      } else {
        assert Lookup(rest, key, key(h)).None?;
      }
    }
  }

  /** Upserting an entry whose key the lower list holds agrees with the closed form. */
  lemma KeyedMergeKnownStep<T(!new), K>(lower: seq<T>, higher: seq<T>, key: T -> K, combine: (T, T) -> T)
    requires KeyPreserving(key, combine)
    requires |higher| > 0 && UniqueKeys(lower, key)
    requires key(higher[0]) in KeysOf(lower, key) && key(higher[0]) !in KeysOf(higher[1..], key)
    ensures KeyedMerge(Upsert(lower, higher[0], key, combine), higher[1..], key, combine) ==
      KeyedMerge(lower, higher, key, combine)
  {
    var h, rest := higher[0], higher[1..];
    var next := Upsert(lower, h, key, combine);
    var lowerKeys := KeysOf(lower, key);
    calc {
      KeyedMerge(next, rest, key, combine);
      MergeMatching(next, rest, key, combine) + Fresh(KeysOf(next, key), rest, key);
      { UpsertKeys(lower, h, key, combine); }
      MergeMatching(next, rest, key, combine) + Fresh(lowerKeys, rest, key);
      { MergeMatchingKnownStep(lower, higher, key, combine); }
      MergeMatching(lower, higher, key, combine) + Fresh(lowerKeys, rest, key);
      { assert Fresh(lowerKeys, higher, key) == Fresh(lowerKeys, rest, key); }
      MergeMatching(lower, higher, key, combine) + Fresh(lowerKeys, higher, key);
    }
  }

  /** Regrouping a concatenation around one entry. */
  lemma SnocThenConcat<T>(a: seq<T>, x: T, b: seq<T>)
    ensures (a + [x]) + b == a + ([x] + b)
  {
  }

  /** The closed form, assembled from its two parts. */
  lemma KeyedMergeFromParts<T, K>(lower: seq<T>, higher: seq<T>, key: T -> K, combine: (T, T) -> T, m: seq<T>, f: seq<T>)
    requires MergeMatching(lower, higher, key, combine) == m
    requires Fresh(KeysOf(lower, key), higher, key) == f
    ensures KeyedMerge(lower, higher, key, combine) == m + f
  {
  }

  /** A higher entry with a new key heads the fresh entries. */
  lemma FreshHead<T, K>(lowerKeys: seq<K>, higher: seq<T>, key: T -> K)
    requires |higher| > 0 && key(higher[0]) !in lowerKeys
    ensures Fresh(lowerKeys, higher, key) == [higher[0]] + Fresh(lowerKeys, higher[1..], key)
  {
  }

  /** Appending an entry with a new key agrees with the closed form. */
  lemma KeyedMergeFreshStep<T, K>(lower: seq<T>, higher: seq<T>, key: T -> K, combine: (T, T) -> T)
    requires |higher| > 0
    requires key(higher[0]) !in KeysOf(lower, key) && key(higher[0]) !in KeysOf(higher[1..], key)
    ensures KeyedMerge(lower + [higher[0]], higher[1..], key, combine) ==
      KeyedMerge(lower, higher, key, combine)
  {
    var h, rest := higher[0], higher[1..];
    var lowerKeys := KeysOf(lower, key);
    var m := MergeMatching(lower, higher, key, combine);
    var f := Fresh(lowerKeys, rest, key);
    KeysOfSnoc(lower, h, key);
    FreshIgnoresUnusedKey(lowerKeys, key(h), rest, key);
    MergeMatchingFreshStep(lower, higher, key, combine);
    KeyedMergeFromParts(lower + [h], rest, key, combine, m + [h], f);
    FreshHead(lowerKeys, higher, key);
    KeyedMergeFromParts(lower, higher, key, combine, m, [h] + f);
    SnocThenConcat(m, h, f);
  }

  /** One step of the fold keeps keys unique and agrees with the closed form. */
  lemma UpsertStep<T(!new), K>(lower: seq<T>, higher: seq<T>, key: T -> K, combine: (T, T) -> T)
    requires KeyPreserving(key, combine)
    requires |higher| > 0 && UniqueKeys(lower, key) && UniqueKeys(higher, key)
    ensures UniqueKeys(Upsert(lower, higher[0], key, combine), key)
    ensures KeyedMerge(Upsert(lower, higher[0], key, combine), higher[1..], key, combine) ==
      KeyedMerge(lower, higher, key, combine)
  {
    UpsertKeys(lower, higher[0], key, combine);
    HeadKeyNotInTail(higher, key);
    if key(higher[0]) in KeysOf(lower, key) {
      KeyedMergeKnownStep(lower, higher, key, combine);
    } else {
      UpsertAppends(lower, higher[0], key, combine);
      KeyedMergeFreshStep(lower, higher, key, combine);
    }
  }

  /**
    The step-by-step builder fold and the closed-form keyed merge agree on
    lists with unique keys.
   */
  lemma {:induction false} UpsertAllIsKeyedMerge<T(!new), K>(lower: seq<T>, higher: seq<T>, key: T -> K, combine: (T, T) -> T)
    requires KeyPreserving(key, combine)
    requires UniqueKeys(lower, key) && UniqueKeys(higher, key)
    ensures UpsertAll(lower, higher, key, combine) == KeyedMerge(lower, higher, key, combine)
    decreases |higher|
  {
    if |higher| == 0 {
      KeyedMergeRightIdentity(lower, key, combine);
    } else {
      var next := Upsert(lower, higher[0], key, combine);
      var rest := higher[1..];
      UpsertStep(lower, higher, key, combine);
      assert UniqueKeys(rest, key);
      calc {
        UpsertAll(lower, higher, key, combine);
        UpsertAll(next, rest, key, combine);
        { UpsertAllIsKeyedMerge(next, rest, key, combine); }
        KeyedMerge(next, rest, key, combine);
        KeyedMerge(lower, higher, key, combine);
      }
    }
  }

  /** A property every entry of both layers has, and that merging keeps, holds of every merged entry. */
  lemma KeyedMergeKeeps<T(!new), K>(lower: seq<T>, higher: seq<T>, key: T -> K, combine: (T, T) -> T, p: T -> bool)
    requires forall a, b :: p(a) && p(b) ==> p(combine(a, b))
    requires forall i :: 0 <= i < |lower| ==> p(lower[i])
    requires forall j :: 0 <= j < |higher| ==> p(higher[j])
    ensures var r := KeyedMerge(lower, higher, key, combine);
      forall i :: 0 <= i < |r| ==> p(r[i])
  {
    var m := MergeMatching(lower, higher, key, combine);
    var f := Fresh(KeysOf(lower, key), higher, key);
    FreshFrom(KeysOf(lower, key), higher, key, p);
    forall i | 0 <= i < |m| ensures p(m[i]) {
      var o := Lookup(higher, key, key(lower[i]));
      if o.Some? {
        assert p(o.value);
      }
    }
    assert forall i :: 0 <= i < |m + f| ==> p((m + f)[i]);
  }
}

=== FILE: kibana_pod.dfy ===
/**
  The Kibana pod-template builder.

  `NewPodTemplateSpec` layers three fragments with the merge rules of
  `PodTemplates.MergeTemplate`:
    1. the default fragment: one Kibana container (image, readiness probe,
       HTTP port, config mount, default resources), the config volume, the
       identity labels and `automount = false`;
    2. the keystore add-on, when there is one: one init container and one volume;
    3. the user's pod template.
 */
module KibanaPod {
  import opened Wrappers
  import opened FieldMerge
  import opened PodTemplates

  /** Name of the main container, the key the user's container is matched on. */
  const KibanaContainerName := "kibana"

  const DefaultImageRepository := "docker.elastic.co/kibana/kibana"

  const NameLabelKey := "kibana.k8s.elastic.co/name"

  const VersionLabelKey := "kibana.k8s.elastic.co/version"

  const HttpPort := 5601

  const ConfigVolumeName := "config"

  const ConfigMountPath := "/usr/share/kibana/config"

  /** The resources the Kibana container gets when the user sets none. */
  const DefaultResources := Resources(
    limits := map["memory" := Quantity("1Gi")],
    requests := map["memory" := Quantity("1Gi")])

  /** The parts of a Kibana resource the builder reads. An empty `image` means "not set". */
  datatype Kibana = Kibana(name: string, version: string, image: string, podTemplate: PodTemplate)

  /** What the keystore add-on contributes. */
  datatype Keystore = Keystore(initContainer: Container, volume: Volume)

  /** A `<repository>:<tag>` image reference: the image, one ':' and the version. */
  function ImageWithVersion(image: string, version: string): (r: string)
    ensures |r| == |image| + 1 + |version|
    ensures r[..|image|] == image && r[|image|] == ':' && r[|image| + 1..] == version
  {
    image + ":" + version
  }

  /** Position of the last occurrence of `c` in `s`. */
  function LastIndexOf(s: string, c: char): (r: Option<nat>)
    ensures r.None? <==> c !in s
    ensures r.Some? ==> r.value < |s| && s[r.value] == c
    ensures r.Some? ==> forall j :: r.value < j < |s| ==> s[j] != c
  {
    if |s| == 0 then None
    else if s[|s| - 1] == c then Some(|s| - 1)
    else
      assert s == s[..|s| - 1] + [s[|s| - 1]];
      LastIndexOf(s[..|s| - 1], c)
  }

  /** Splits an image reference at its last ':' into repository and tag. */
  function SplitImageTag(ref: string): Option<(string, string)>
  {
    match LastIndexOf(ref, ':')
    case None => None
    case Some(i) => Some((ref[..i], ref[i + 1..]))
  }

  /** The identity labels before the version label is added: the name label. */
  function NewLabels(name: string): map<string, string>
  {
    map[NameLabelKey := name]
  }

  /** The labels the builder computes: name and version. */
  function IdentityLabels(kb: Kibana): (r: map<string, string>)
    ensures r.Keys == {NameLabelKey, VersionLabelKey}
    ensures r[NameLabelKey] == kb.name && r[VersionLabelKey] == kb.version
  {
    NewLabels(kb.name)[VersionLabelKey := kb.version]
  }

  /** The explicit image when one is given, verbatim; otherwise the default repository at the version. */
  function DefaultImage(kb: Kibana): (r: string)
    ensures r != ""
    ensures kb.image != "" ==> r == kb.image
    ensures kb.image == "" ==> r == DefaultImageRepository + ":" + kb.version
  {
    if kb.image != "" then kb.image else ImageWithVersion(DefaultImageRepository, kb.version)
  }

  const ReadinessProbe := HttpGetProbe("/login", HttpPort)

  const DefaultPorts := [ContainerPort("http", HttpPort)]

  const ConfigMount := VolumeMount(ConfigVolumeName, ConfigMountPath)

  /**
    The Kibana container of the defaults: always named `kibana`, always with
    an image, the default resources, no env, the config mount, a readiness
    probe and the HTTP port first.
   */
  function DefaultContainer(kb: Kibana): (r: Container)
    ensures r.name == KibanaContainerName
    ensures r.image != "" && (kb.image != "" ==> r.image == kb.image)
    ensures r.resources == Some(DefaultResources) && r.env == []
    ensures |r.volumeMounts| == 1 && r.volumeMounts[0].name == ConfigVolumeName
    ensures r.readinessProbe.Some? && |r.ports| >= 1 && r.ports[0].containerPort == HttpPort
  {
    Container(
      name := KibanaContainerName,
      image := DefaultImage(kb),
      resources := Some(DefaultResources),
      env := [],
      volumeMounts := [ConfigMount],
      readinessProbe := Some(ReadinessProbe),
      ports := DefaultPorts)
  }

  function ConfigVolume(kb: Kibana): Volume
  {
    Volume(ConfigVolumeName, SecretVolume(kb.name + "-kb-config"))
  }

  /**
    Layer 1: the defaults. One container, the Kibana one, with the identity
    labels, the config volume, no init containers and the service-account
    token not mounted.
   */
  function DefaultFragment(kb: Kibana): (r: PodTemplate)
    ensures r.containers == [DefaultContainer(kb)]
    ensures r.labels.Keys == {NameLabelKey, VersionLabelKey}
    ensures r.labels[NameLabelKey] == kb.name && r.labels[VersionLabelKey] == kb.version
    ensures r.initContainers == [] && |r.volumes| == 1 && r.volumes[0].name == ConfigVolumeName
    ensures r.automount == Some(false)
  {
    PodTemplate(
      labels := IdentityLabels(kb),
      containers := [DefaultContainer(kb)],
      initContainers := [],
      volumes := [ConfigVolume(kb)],
      automount := Some(false))
  }

  /** Layer 2: the keystore add-on. */
  function KeystoreFragment(ks: Keystore): PodTemplate
  {
    PodTemplate(map[], [], [ks.initContainer], [ks.volume], None)
  }

  /** The defaults with the keystore add-on, if any, folded in. */
  function WithAddOns(kb: Kibana, keystore: Option<Keystore>): PodTemplate
  {
    match keystore
    case None => DefaultFragment(kb)
    case Some(ks) => MergeTemplate(DefaultFragment(kb), KeystoreFragment(ks))
  }

  /**
    The final pod template: defaults, then the keystore add-on, then the
    user's template. Whatever the inputs, the automount setting is decided,
    the identity labels are present and every user label is kept with the
    user's value. (`KibanaContainerOfResult` states where the Kibana
    container ends up.)
   */
  function NewPodTemplateSpec(kb: Kibana, keystore: Option<Keystore>): (r: PodTemplate)
    ensures r.automount.Some?
    ensures NameLabelKey in r.labels && VersionLabelKey in r.labels
    ensures forall k :: k in kb.podTemplate.labels ==> k in r.labels && r.labels[k] == kb.podTemplate.labels[k]
  {
    WithAddOnsShape(kb, keystore);
    MergeTemplate(WithAddOns(kb, keystore), kb.podTemplate)
  }

  /** The first container named `kibana`, if any. */
  function GetKibanaContainer(pod: PodTemplate): (r: Option<Container>)
    ensures r.None? <==> forall i :: 0 <= i < |pod.containers| ==> pod.containers[i].name != KibanaContainerName
    ensures r.Some? ==> exists i ::
      && 0 <= i < |pod.containers| && pod.containers[i] == r.value
      && (forall j :: 0 <= j < i ==> pod.containers[j].name != KibanaContainerName)
    ensures r.Some? ==> r.value.name == KibanaContainerName
  {
    InKeysOf(pod.containers, ContainerName, KibanaContainerName);
    Lookup(pod.containers, ContainerName, KibanaContainerName)
  }

  /** The contributions of the keystore add-on, by slot. */
  function AddOnInitContainers(keystore: Option<Keystore>): seq<Container>
  {
    match keystore
    case None => []
    case Some(ks) => [ks.initContainer]
  }

  function AddOnVolumes(keystore: Option<Keystore>): seq<Volume>
  {
    match keystore
    case None => []
    case Some(ks) => [ks.volume]
  }

  // ---------------------------------------------------------------------------
  // Lemmas
  // ---------------------------------------------------------------------------

  /** Splitting the reference at its last ':' recovers repository and version (versions have no ':'). */
  lemma SplitImageWithVersion(image: string, version: string)
    requires ':' !in version
    ensures SplitImageTag(ImageWithVersion(image, version)) == Some((image, version))
  {
    var ref := ImageWithVersion(image, version);
    var i := |image|;
    assert ref[i] == ':';
    var last := LastIndexOf(ref, ':');
    assert last.Some?;
    forall j | i < j < |ref| ensures ref[j] != ':' {
      assert ref[j] == version[j - i - 1];
    }
    assert last.value == i;
    assert ref[..i] == image && ref[i + 1..] == version;
  }

  /** The defaults are well-formed, and the Kibana container found in them is the default container. */
  lemma DefaultFragmentWellFormed(kb: Kibana)
    ensures WellFormed(DefaultFragment(kb))
    ensures GetKibanaContainer(DefaultFragment(kb)) == Some(DefaultContainer(kb))
  {
    assert IndexOf(DefaultFragment(kb).containers, ContainerName, KibanaContainerName) == Some(0);
  }

  /**
    Layering the keystore add-on over any fragment leaves its labels,
    containers and automount alone, and merges the keystore's init container
    and volume by name into the fragment's lists.
   */
  lemma KeystoreLayerShape(t: PodTemplate, ks: Keystore)
    ensures var r := MergeTemplate(t, KeystoreFragment(ks));
      && r.labels == t.labels && r.containers == t.containers && r.automount == t.automount
      && r.initContainers == KeyedMerge(t.initContainers, [ks.initContainer], ContainerName, MergeContainer)
      && r.volumes == KeyedMerge(t.volumes, [ks.volume], VolumeName, Replace)
  {
    KeyedMergeRightIdentity(t.containers, ContainerName, MergeContainer);
    assert t.labels + map[] == t.labels;
  }

  /** A keystore init container or volume with a new name is appended after the fragment's own. */
  lemma KeystoreLayerAppends(t: PodTemplate, ks: Keystore)
    ensures ks.initContainer.name !in KeysOf(t.initContainers, ContainerName) ==>
      MergeTemplate(t, KeystoreFragment(ks)).initContainers == t.initContainers + [ks.initContainer]
    ensures ks.volume.name !in KeysOf(t.volumes, VolumeName) ==>
      MergeTemplate(t, KeystoreFragment(ks)).volumes == t.volumes + [ks.volume]
  {
    KeystoreLayerShape(t, ks);
    if ks.initContainer.name !in KeysOf(t.initContainers, ContainerName) {
      KeyedMergeAppends(t.initContainers, [ks.initContainer], ContainerName, MergeContainer);
    }
    if ks.volume.name !in KeysOf(t.volumes, VolumeName) {
      KeyedMergeAppends(t.volumes, [ks.volume], VolumeName, Replace);
    }
  }

  /** The keystore add-on only touches init containers and volumes. */
  lemma WithAddOnsShape(kb: Kibana, keystore: Option<Keystore>)
    ensures var t := WithAddOns(kb, keystore);
      && t.labels == IdentityLabels(kb)
      && t.containers == [DefaultContainer(kb)]
      && t.initContainers == AddOnInitContainers(keystore)
      && t.volumes == KeyedMerge([ConfigVolume(kb)], AddOnVolumes(keystore), VolumeName, Replace)
      && t.automount == Some(false)
  {
    KeyedMergeRightIdentity([ConfigVolume(kb)], VolumeName, Replace);
    if keystore.Some? {
      var ks := keystore.value;
      KeyedMergeRightIdentity([DefaultContainer(kb)], ContainerName, MergeContainer);
      KeyedMergeLeftIdentity([ks.initContainer], ContainerName, MergeContainer);
      assert IdentityLabels(kb) + map[] == IdentityLabels(kb);
    }
  }

  /**
    The final Kibana container is the first container, and it is the default
    container merged with the user's container of the same name, if any.
   */
  lemma KibanaContainerOfResult(kb: Kibana, keystore: Option<Keystore>)
    ensures var pod := NewPodTemplateSpec(kb, keystore);
      && |pod.containers| >= 1
      && pod.containers[0] == Absorb(DefaultContainer(kb), GetKibanaContainer(kb.podTemplate), MergeContainer)
      && GetKibanaContainer(pod) == Some(pod.containers[0])
  {
    WithAddOnsShape(kb, keystore);
    var pod := NewPodTemplateSpec(kb, keystore);
    var m := MergeMatching([DefaultContainer(kb)], kb.podTemplate.containers, ContainerName, MergeContainer);
    assert pod.containers[0] == m[0];
    assert pod.containers[0].name == KibanaContainerName;
    assert IndexOf(pod.containers, ContainerName, KibanaContainerName) == Some(0);
  }

  /**
    Image precedence: the user's Kibana container image when set, else the
    explicit image verbatim, else the default repository at the version.
   */
  lemma KibanaImage(kb: Kibana, keystore: Option<Keystore>)
    ensures var user := GetKibanaContainer(kb.podTemplate);
      var c := GetKibanaContainer(NewPodTemplateSpec(kb, keystore));
      && c.Some?
      && (user.Some? && user.value.image != "" ==> c.value.image == user.value.image)
      && (!(user.Some? && user.value.image != "") && kb.image != "" ==> c.value.image == kb.image)
      && (!(user.Some? && user.value.image != "") && kb.image == "" ==>
            c.value.image == ImageWithVersion(DefaultImageRepository, kb.version))
  {
    KibanaContainerOfResult(kb, keystore);
  }

  /** Resources are atomic: the user's block replaces the default one as a whole. */
  lemma KibanaResources(kb: Kibana, keystore: Option<Keystore>)
    ensures var user := GetKibanaContainer(kb.podTemplate);
      var c := GetKibanaContainer(NewPodTemplateSpec(kb, keystore));
      && c.Some?
      && (user.Some? && user.value.resources.Some? ==> c.value.resources == user.value.resources)
      && (!(user.Some? && user.value.resources.Some?) ==> c.value.resources == Some(DefaultResources))
  {
    KibanaContainerOfResult(kb, keystore);
  }

  /** The default container has no env, so the final env is exactly the user's. */
  lemma KibanaEnv(kb: Kibana, keystore: Option<Keystore>)
    ensures var user := GetKibanaContainer(kb.podTemplate);
      var c := GetKibanaContainer(NewPodTemplateSpec(kb, keystore));
      && c.Some?
      && c.value.env == (if user.Some? then user.value.env else [])
  {
    KibanaContainerOfResult(kb, keystore);
  }

  /** The mounts of the default container merged with a user container, if any. */
  lemma MergedKibanaMounts(kb: Kibana, user: Option<Container>)
    ensures var userMounts := if user.Some? then user.value.volumeMounts else [];
      var c := Absorb(DefaultContainer(kb), user, MergeContainer);
      && c.volumeMounts == KeyedMerge([ConfigMount], userMounts, MountName, Replace)
      && ((forall j :: 0 <= j < |userMounts| ==> userMounts[j].name != ConfigVolumeName) ==>
            c.volumeMounts == [ConfigMount] + userMounts)
  {
    var userMounts := if user.Some? then user.value.volumeMounts else [];
    if user.None? {
      KeyedMergeRightIdentity([ConfigMount], MountName, Replace);
    }
    if forall j :: 0 <= j < |userMounts| ==> userMounts[j].name != ConfigVolumeName {
      KeyedMergeAppends([ConfigMount], userMounts, MountName, Replace);
    }
  }

  /** User mounts with new names are appended after the config mount. */
  lemma KibanaMounts(kb: Kibana, keystore: Option<Keystore>)
    ensures var user := GetKibanaContainer(kb.podTemplate);
      var userMounts := if user.Some? then user.value.volumeMounts else [];
      var c := GetKibanaContainer(NewPodTemplateSpec(kb, keystore));
      && c.Some?
      && c.value.volumeMounts == KeyedMerge([ConfigMount], userMounts, MountName, Replace)
      && ((forall j :: 0 <= j < |userMounts| ==> userMounts[j].name != ConfigVolumeName) ==>
            c.value.volumeMounts == [ConfigMount] + userMounts)
  {
    KibanaContainerOfResult(kb, keystore);
    MergedKibanaMounts(kb, GetKibanaContainer(kb.podTemplate));
  }

  /** Merging any user container into the default one keeps a readiness probe and the HTTP port first. */
  lemma MergedKibanaReady(kb: Kibana, user: Option<Container>)
    ensures var c := Absorb(DefaultContainer(kb), user, MergeContainer);
      && c.readinessProbe.Some?
      && |c.ports| >= 1 && c.ports[0] == ContainerPort("http", HttpPort)
  {
    if user.Some? {
      var c := MergeContainer(DefaultContainer(kb), user.value);
      assert c.ports[..1] == DefaultPorts;
    }
  }

  /** Whatever the user supplies, the Kibana container keeps a readiness probe and at least one port. */
  lemma KibanaReady(kb: Kibana, keystore: Option<Keystore>)
    ensures var c := GetKibanaContainer(NewPodTemplateSpec(kb, keystore));
      && c.Some?
      && c.value.readinessProbe.Some?
      && |c.value.ports| >= 1 && c.value.ports[0] == ContainerPort("http", HttpPort)
  {
    KibanaContainerOfResult(kb, keystore);
    MergedKibanaReady(kb, GetKibanaContainer(kb.podTemplate));
  }

  /**
    Labels: the identity labels overlaid key by key with the user's labels;
    the user wins on every shared key, including the name and version labels.
   */
  lemma PodLabels(kb: Kibana, keystore: Option<Keystore>)
    ensures var labels := NewPodTemplateSpec(kb, keystore).labels;
      var user := kb.podTemplate.labels;
      && labels.Keys == {NameLabelKey, VersionLabelKey} + user.Keys
      && (forall k :: k in user ==> labels[k] == user[k])
      && (NameLabelKey !in user ==> labels[NameLabelKey] == kb.name)
      && (VersionLabelKey !in user ==> labels[VersionLabelKey] == kb.version)
  {
    WithAddOnsShape(kb, keystore);
  }

  /** The service-account token is not mounted unless the user says otherwise. */
  lemma PodAutomount(kb: Kibana, keystore: Option<Keystore>)
    ensures var a := NewPodTemplateSpec(kb, keystore).automount;
      && (kb.podTemplate.automount.None? ==> a == Some(false))
      && (kb.podTemplate.automount.Some? ==> a == kb.podTemplate.automount)
  {
    WithAddOnsShape(kb, keystore);
  }

  /** The only container is Kibana's unless the user adds containers with other names. */
  lemma PodContainers(kb: Kibana, keystore: Option<Keystore>)
    ensures var cs := NewPodTemplateSpec(kb, keystore).containers;
      var user := kb.podTemplate.containers;
      cs == [Absorb(DefaultContainer(kb), GetKibanaContainer(kb.podTemplate), MergeContainer)]
        + Fresh([KibanaContainerName], user, ContainerName)
  {
    WithAddOnsShape(kb, keystore);
    KeyedMergeSingle(DefaultContainer(kb), kb.podTemplate.containers, ContainerName, MergeContainer);
  }

  /**
    Init containers: the keystore's, then the user's, appended when their
    names differ.
   */
  lemma PodInitContainers(kb: Kibana, keystore: Option<Keystore>)
    requires forall j :: 0 <= j < |kb.podTemplate.initContainers| ==>
      kb.podTemplate.initContainers[j].name !in KeysOf(AddOnInitContainers(keystore), ContainerName)
    ensures NewPodTemplateSpec(kb, keystore).initContainers ==
      AddOnInitContainers(keystore) + kb.podTemplate.initContainers
  {
    WithAddOnsShape(kb, keystore);
    KeyedMergeAppends(AddOnInitContainers(keystore), kb.podTemplate.initContainers, ContainerName, MergeContainer);
  }

  /**
    Volumes: the config volume, the keystore's, then the user's, appended
    when their names differ.
   */
  lemma PodVolumes(kb: Kibana, keystore: Option<Keystore>)
    requires keystore.Some? ==> keystore.value.volume.name != ConfigVolumeName
    requires forall j :: 0 <= j < |kb.podTemplate.volumes| ==>
      kb.podTemplate.volumes[j].name !in [ConfigVolumeName] + KeysOf(AddOnVolumes(keystore), VolumeName)
    ensures NewPodTemplateSpec(kb, keystore).volumes ==
      [ConfigVolume(kb)] + AddOnVolumes(keystore) + kb.podTemplate.volumes
  {
    WithAddOnsShape(kb, keystore);
    var base := [ConfigVolume(kb)] + AddOnVolumes(keystore);
    KeyedMergeAppends([ConfigVolume(kb)], AddOnVolumes(keystore), VolumeName, Replace);
    KeysOfAppend([ConfigVolume(kb)], AddOnVolumes(keystore), VolumeName);
    KeyedMergeAppends(base, kb.podTemplate.volumes, VolumeName, Replace);
  }

  /**
    The keystore volume is added next to the config volume exactly when its
    name differs; a volume with the config volume's name replaces it instead.
   */
  lemma KeystoreVolumeCount(kb: Kibana, ks: Keystore)
    requires kb.podTemplate.volumes == []
    ensures |NewPodTemplateSpec(kb, Some(ks)).volumes| == 2 <==> ks.volume.name != ConfigVolumeName
    ensures ks.volume.name == ConfigVolumeName ==> NewPodTemplateSpec(kb, Some(ks)).volumes == [ks.volume]
  {
    WithAddOnsShape(kb, Some(ks));
    var base := KeyedMerge([ConfigVolume(kb)], [ks.volume], VolumeName, Replace);
    KeyedMergeRightIdentity(base, VolumeName, Replace);
    if ks.volume.name == ConfigVolumeName {
      assert Lookup([ks.volume], VolumeName, ConfigVolumeName) == Some(ks.volume);
      assert Fresh([ConfigVolumeName], [ks.volume], VolumeName) == [];
    } else {
      KeyedMergeAppends([ConfigVolume(kb)], [ks.volume], VolumeName, Replace);
    }
  }

  /**
    The final template keeps the uniqueness invariants: containers, init
    containers, volumes and each container's mounts are unique by name.
   */
  lemma PodWellFormed(kb: Kibana, keystore: Option<Keystore>)
    requires WellFormed(kb.podTemplate)
    requires keystore.Some? ==> UniqueKeys(keystore.value.initContainer.volumeMounts, MountName)
    ensures WellFormed(NewPodTemplateSpec(kb, keystore))
  {
    var base := DefaultFragment(kb);
    DefaultFragmentWellFormed(kb);
    if keystore.Some? {
      assert WellFormed(KeystoreFragment(keystore.value));
      MergeTemplateWellFormed(base, KeystoreFragment(keystore.value));
    }
    MergeTemplateWellFormed(WithAddOns(kb, keystore), kb.podTemplate);
  }

  /**
    No user name is lost: every user label is kept with the user's value,
    and the name of every user container, init container and volume is
    present in the final template.
   */
  lemma UserContributionsKept(kb: Kibana, keystore: Option<Keystore>, n: string)
    ensures var pod := NewPodTemplateSpec(kb, keystore);
      var user := kb.podTemplate;
      && (forall k :: k in user.labels ==> k in pod.labels && pod.labels[k] == user.labels[k])
      && (n in KeysOf(user.containers, ContainerName) ==> n in KeysOf(pod.containers, ContainerName))
      && (n in KeysOf(user.initContainers, ContainerName) ==> n in KeysOf(pod.initContainers, ContainerName))
      && (n in KeysOf(user.volumes, VolumeName) ==> n in KeysOf(pod.volumes, VolumeName))
  {
    MergeTemplateNames(WithAddOns(kb, keystore), kb.podTemplate, n);
  }
}

=== FILE: kibana_pod_cases.dfy ===
/**
  The table-driven cases of the Kibana pod builder's tests, each stated as a
  lemma about `KibanaPod.NewPodTemplateSpec` and generalised over the inputs
  the case does not depend on.
 */
module KibanaPodCases {
  import opened Wrappers
  import opened FieldMerge
  import opened PodTemplates
  import opened KibanaPod

  /** A user pod template that only sets the Kibana container, as several cases do. */
  function KibanaOverride(c: Container): PodTemplate
  {
    PodTemplate(map[], [c], [], [], None)
  }

  lemma ImageWithVersionCases()
    ensures ImageWithVersion("someimage", "6.4.2") == "someimage:6.4.2"
    ensures ImageWithVersion("differentimage", "6.4.1") == "differentimage:6.4.1"
  {
  }

  /** "defaults": no keystore and no user template give exactly the default fragment. */
  lemma DefaultsCase(name: string, version: string)
    ensures var pod := NewPodTemplateSpec(Kibana(name, version, "", EmptyTemplate), None);
      var c := GetKibanaContainer(pod);
      && pod.automount == Some(false)
      && |pod.containers| == 1
      && |pod.initContainers| == 0
      && |pod.volumes| == 1
      && c.Some?
      && |c.value.volumeMounts| == 1
      && c.value.image == ImageWithVersion(DefaultImageRepository, version)
      && c.value.readinessProbe.Some?
      && |c.value.ports| > 0
  {
    var kb := Kibana(name, version, "", EmptyTemplate);
    MergeTemplateRightIdentity(DefaultFragment(kb));
    KibanaContainerOfResult(kb, None);
  }

  /** "with additional volumes and init containers for the Keystore". */
  lemma KeystoreCase(version: string, ks: Keystore)
    requires ks.volume.name != ConfigVolumeName
    ensures var pod := NewPodTemplateSpec(Kibana("", version, "", EmptyTemplate), Some(ks));
      && |pod.initContainers| == 1
      && |pod.volumes| == 2
  {
    var kb := Kibana("", version, "", EmptyTemplate);
    PodInitContainers(kb, Some(ks));
    KeystoreVolumeCount(kb, ks);
  }

  /** "with custom image": an explicit image is used verbatim, with no version suffix. */
  lemma CustomImageCase(version: string, image: string)
    requires image != ""
    ensures var c := GetKibanaContainer(NewPodTemplateSpec(Kibana("", version, image, EmptyTemplate), None));
      c.Some? && c.value.image == image
  {
    KibanaImage(Kibana("", version, image, EmptyTemplate), None);
  }

  /** "with default resources". */
  lemma DefaultResourcesCase(version: string)
    ensures var c := GetKibanaContainer(NewPodTemplateSpec(Kibana("", version, "", EmptyTemplate), None));
      c.Some? && c.value.resources == Some(DefaultResources)
  {
    KibanaResources(Kibana("", version, "", EmptyTemplate), None);
  }

  /** "with user-provided resources": a limits-only block is kept exactly, with no default requests. */
  lemma UserResourcesCase(version: string)
    ensures var limitsOnly := Resources(map["memory" := Quantity("3Gi")], map[]);
      var user := KibanaOverride(BareContainer(KibanaContainerName).(resources := Some(limitsOnly)));
      var c := GetKibanaContainer(NewPodTemplateSpec(Kibana("", version, "", user), None));
      c.Some? && c.value.resources == Some(limitsOnly)
  {
    var limitsOnly := Resources(map["memory" := Quantity("3Gi")], map[]);
    var user := KibanaOverride(BareContainer(KibanaContainerName).(resources := Some(limitsOnly)));
    KibanaResources(Kibana("", version, "", user), None);
  }

  /** "with user-provided init containers". */
  lemma UserInitContainersCase(version: string)
    ensures var user := EmptyTemplate.(initContainers := [BareContainer("user-init-container")]);
      |NewPodTemplateSpec(Kibana("", version, "", user), None).initContainers| == 1
  {
    var user := EmptyTemplate.(initContainers := [BareContainer("user-init-container")]);
    PodInitContainers(Kibana("", version, "", user), None);
  }

  /** "with user-provided labels": the user's labels win, including the name label. */
  lemma UserLabelsCase()
    ensures var userLabels := map["label1" := "value1", "label2" := "value2", NameLabelKey := "overridden-kibana-name"];
      var kb := Kibana("kibana-name", "7.4.0", "", EmptyTemplate.(labels := userLabels));
      NewPodTemplateSpec(kb, None).labels ==
        NewLabels("kibana-name")[VersionLabelKey := "7.4.0"]["label1" := "value1"]["label2" := "value2"]
          [NameLabelKey := "overridden-kibana-name"]
  {
    var userLabels := map["label1" := "value1", "label2" := "value2", NameLabelKey := "overridden-kibana-name"];
    var kb := Kibana("kibana-name", "7.4.0", "", EmptyTemplate.(labels := userLabels));
    PodLabels(kb, None);
  }

  /** "with user-provided environment": the user's env var is added to the default (empty) env. */
  lemma UserEnvCase(version: string)
    ensures var user := KibanaOverride(BareContainer(KibanaContainerName).(env := [EnvVar("user-env", "user-env-value")]));
      var c := GetKibanaContainer(NewPodTemplateSpec(Kibana("", version, "", user), None));
      c.Some? && |c.value.env| == 1
  {
    var user := KibanaOverride(BareContainer(KibanaContainerName).(env := [EnvVar("user-env", "user-env-value")]));
    KibanaEnv(Kibana("", version, "", user), None);
  }

  /** "with user-provided volumes and volume mounts": both are appended to the defaults. */
  lemma UserVolumesCase(version: string, mount: VolumeMount, volume: Volume)
    requires mount.name == "user-volume-mount" && volume.name == "user-volume"
    ensures var user := KibanaOverride(BareContainer(KibanaContainerName).(volumeMounts := [mount])).(volumes := [volume]);
      var pod := NewPodTemplateSpec(Kibana("", version, "", user), None);
      var c := GetKibanaContainer(pod);
      && |pod.volumes| == 2
      && c.Some? && |c.value.volumeMounts| == 2
  {
    var user := KibanaOverride(BareContainer(KibanaContainerName).(volumeMounts := [mount])).(volumes := [volume]);
    var kb := Kibana("", version, "", user);
    PodVolumes(kb, None);
    KibanaMounts(kb, None);
  }
}

=== FILE: pod_template.dfy ===
/**
  The part of a Kubernetes pod template that the Kibana builder writes, and
  the layering of one pod-template fragment over another.

  Resource quantities, probes, ports and volume sources are kept opaque: the
  builder only places them, it never looks inside.
 */
module PodTemplates {
  import opened Wrappers
  import opened FieldMerge

  /** An already-parsed resource quantity such as "1Gi"; its text is never interpreted. */
  datatype Quantity = Quantity(text: string)

  /** Limits and requests, keyed by resource name ("memory", "cpu"). */
  datatype Resources = Resources(limits: map<string, Quantity>, requests: map<string, Quantity>)

  datatype EnvVar = EnvVar(name: string, value: string)

  datatype VolumeMount = VolumeMount(name: string, mountPath: string)

  datatype ContainerPort = ContainerPort(name: string, containerPort: int)

  datatype Probe = HttpGetProbe(path: string, port: int)

  /**
    A container. An empty `image` means "not set"; `resources` and
    `readinessProbe` are present or absent as a whole.
   */
  datatype Container = Container(
    name: string,
    image: string,
    resources: Option<Resources>,
    env: seq<EnvVar>,
    volumeMounts: seq<VolumeMount>,
    readinessProbe: Option<Probe>,
    ports: seq<ContainerPort>)

  datatype VolumeSource = SecretVolume(secretName: string) | EmptyDirVolume

  datatype Volume = Volume(name: string, source: VolumeSource)

  /** The labels of the pod template's metadata and the fields of its pod spec that the builder sets. */
  datatype PodTemplate = PodTemplate(
    labels: map<string, string>,
    containers: seq<Container>,
    initContainers: seq<Container>,
    volumes: seq<Volume>,
    automount: Option<bool>)

  function ContainerName(c: Container): string { c.name }

  function VolumeName(v: Volume): string { v.name }

  function MountName(m: VolumeMount): string { m.name }

  /** The template with every slot unset: layering it changes nothing. */
  const EmptyTemplate := PodTemplate(map[], [], [], [], None)

  /** A container that only names itself: layering it over a container changes nothing. */
  function BareContainer(name: string): Container
  {
    Container(name, "", None, [], [], None, [])
  }

  /** Container names are unique, and so are the mount names of each container. */
  predicate ContainersWellFormed(cs: seq<Container>)
  {
    && UniqueKeys(cs, ContainerName)
    && forall i :: 0 <= i < |cs| ==> UniqueKeys(cs[i].volumeMounts, MountName)
  }

  /** The uniqueness invariants of a pod template: by name for containers, init containers, volumes and mounts. */
  predicate WellFormed(t: PodTemplate)
  {
    && ContainersWellFormed(t.containers)
    && ContainersWellFormed(t.initContainers)
    && UniqueKeys(t.volumes, VolumeName)
  }

  /**
    Layers container `higher` over container `lower` (same name): scalar and
    whole-struct slots are replaced when the higher layer sets them, env and
    ports are appended, mounts are merged by name.
   */
  function MergeContainer(lower: Container, higher: Container): (r: Container)
    ensures r.name == lower.name
    ensures higher.image != "" ==> r.image == higher.image
    ensures higher.image == "" ==> r.image == lower.image
    ensures higher.resources.Some? ==> r.resources == higher.resources
    ensures higher.resources.None? ==> r.resources == lower.resources
    ensures |r.env| == |lower.env| + |higher.env|
    ensures r.env[..|lower.env|] == lower.env && r.env[|lower.env|..] == higher.env
    ensures |r.ports| == |lower.ports| + |higher.ports|
    ensures r.ports[..|lower.ports|] == lower.ports && r.ports[|lower.ports|..] == higher.ports
    ensures higher.readinessProbe.Some? ==> r.readinessProbe == higher.readinessProbe
    ensures higher.readinessProbe.None? ==> r.readinessProbe == lower.readinessProbe
    ensures |lower.volumeMounts| <= |r.volumeMounts| <= |lower.volumeMounts| + |higher.volumeMounts|
    ensures forall i :: 0 <= i < |lower.volumeMounts| ==>
      r.volumeMounts[i] == Absorb(lower.volumeMounts[i], Lookup(higher.volumeMounts, MountName, lower.volumeMounts[i].name), Replace)
  {
    Container(
      name := lower.name,
      image := if higher.image != "" then higher.image else lower.image,
      resources := Overlay(lower.resources, higher.resources),
      env := lower.env + higher.env,
      volumeMounts := KeyedMerge(lower.volumeMounts, higher.volumeMounts, MountName, Replace),
      readinessProbe := Overlay(lower.readinessProbe, higher.readinessProbe),
      ports := lower.ports + higher.ports)
  }

  /**
    Layers fragment `higher` over fragment `lower`, slot by slot: the higher
    layer wins on labels and automount, keyed lists keep every lower entry
    and add at most the higher layer's entries.
   */
  function MergeTemplate(lower: PodTemplate, higher: PodTemplate): (r: PodTemplate)
    ensures r.labels.Keys == lower.labels.Keys + higher.labels.Keys
    ensures forall k :: k in higher.labels ==> r.labels[k] == higher.labels[k]
    ensures forall k :: k in lower.labels && k !in higher.labels ==> r.labels[k] == lower.labels[k]
    ensures higher.automount.Some? ==> r.automount == higher.automount
    ensures higher.automount.None? ==> r.automount == lower.automount
    ensures |lower.containers| <= |r.containers| <= |lower.containers| + |higher.containers|
    ensures |lower.initContainers| <= |r.initContainers| <= |lower.initContainers| + |higher.initContainers|
    ensures |lower.volumes| <= |r.volumes| <= |lower.volumes| + |higher.volumes|
    ensures forall i :: 0 <= i < |lower.containers| ==>
      r.containers[i] == Absorb(lower.containers[i], Lookup(higher.containers, ContainerName, lower.containers[i].name), MergeContainer)
    ensures forall i :: 0 <= i < |lower.initContainers| ==>
      r.initContainers[i] == Absorb(lower.initContainers[i], Lookup(higher.initContainers, ContainerName, lower.initContainers[i].name), MergeContainer)
    ensures forall i :: 0 <= i < |lower.volumes| ==>
      r.volumes[i] == Absorb(lower.volumes[i], Lookup(higher.volumes, VolumeName, lower.volumes[i].name), Replace)
  {
    PodTemplate(
      labels := MapOverlay(lower.labels, higher.labels),
      containers := KeyedMerge(lower.containers, higher.containers, ContainerName, MergeContainer),
      initContainers := KeyedMerge(lower.initContainers, higher.initContainers, ContainerName, MergeContainer),
      volumes := KeyedMerge(lower.volumes, higher.volumes, VolumeName, Replace),
      automount := Overlay(lower.automount, higher.automount))
  }

  // ---------------------------------------------------------------------------
  // Lemmas
  // ---------------------------------------------------------------------------

  lemma MergeKeysPreserved()
    ensures KeyPreserving(ContainerName, MergeContainer)
    ensures KeyPreserving(MountName, Replace)
    ensures KeyPreserving(VolumeName, Replace)
  {
  }

  /** Layering a container that only names itself leaves the lower container unchanged. */
  lemma MergeContainerBareOverride(c: Container)
    ensures MergeContainer(c, BareContainer(c.name)) == c
  {
    KeyedMergeRightIdentity(c.volumeMounts, MountName, Replace);
  }

  /** Layering the empty template changes nothing: missing user input degenerates to the lower layer. */
  lemma MergeTemplateRightIdentity(t: PodTemplate)
    ensures MergeTemplate(t, EmptyTemplate) == t
  {
    KeyedMergeRightIdentity(t.containers, ContainerName, MergeContainer);
    KeyedMergeRightIdentity(t.initContainers, ContainerName, MergeContainer);
    KeyedMergeRightIdentity(t.volumes, VolumeName, Replace);
  }

  /** Layering any template over the empty one yields it unchanged. */
  lemma MergeTemplateLeftIdentity(t: PodTemplate)
    ensures MergeTemplate(EmptyTemplate, t) == t
  {
    KeyedMergeLeftIdentity(t.containers, ContainerName, MergeContainer);
    KeyedMergeLeftIdentity(t.initContainers, ContainerName, MergeContainer);
    KeyedMergeLeftIdentity(t.volumes, VolumeName, Replace);
  }

  /** Merging two containers with unique mount names gives unique mount names. */
  lemma MergeContainerWellFormed(lower: Container, higher: Container)
    requires UniqueKeys(lower.volumeMounts, MountName) && UniqueKeys(higher.volumeMounts, MountName)
    ensures UniqueKeys(MergeContainer(lower, higher).volumeMounts, MountName)
  {
    MergeKeysPreserved();
    KeyedMergeUnique(lower.volumeMounts, higher.volumeMounts, MountName, Replace);
  }

  lemma MergeContainersWellFormed(lower: seq<Container>, higher: seq<Container>)
    requires ContainersWellFormed(lower) && ContainersWellFormed(higher)
    ensures ContainersWellFormed(KeyedMerge(lower, higher, ContainerName, MergeContainer))
  {
    MergeKeysPreserved();
    KeyedMergeUnique(lower, higher, ContainerName, MergeContainer);
    var p := (c: Container) => UniqueKeys(c.volumeMounts, MountName);
    forall a, b | p(a) && p(b) ensures p(MergeContainer(a, b)) {
      MergeContainerWellFormed(a, b);
    }
    KeyedMergeKeeps(lower, higher, ContainerName, MergeContainer, p);
  }

  /** Layering keeps the uniqueness invariants: names stay unique in the final template. */
  lemma MergeTemplateWellFormed(lower: PodTemplate, higher: PodTemplate)
    requires WellFormed(lower) && WellFormed(higher)
    ensures WellFormed(MergeTemplate(lower, higher))
  {
    MergeKeysPreserved();
    MergeContainersWellFormed(lower.containers, higher.containers);
    MergeContainersWellFormed(lower.initContainers, higher.initContainers);
    KeyedMergeUnique(lower.volumes, higher.volumes, VolumeName, Replace);
  }

  /**
    Nothing is dropped and nothing is invented: every container, init
    container and volume name of either layer is present in the result, and
    no other.
   */
  lemma MergeTemplateNames(lower: PodTemplate, higher: PodTemplate, n: string)
    ensures var r := MergeTemplate(lower, higher);
      && (n in KeysOf(r.containers, ContainerName) <==>
            n in KeysOf(lower.containers, ContainerName) || n in KeysOf(higher.containers, ContainerName))
      && (n in KeysOf(r.initContainers, ContainerName) <==>
            n in KeysOf(lower.initContainers, ContainerName) || n in KeysOf(higher.initContainers, ContainerName))
      && (n in KeysOf(r.volumes, VolumeName) <==>
            n in KeysOf(lower.volumes, VolumeName) || n in KeysOf(higher.volumes, VolumeName))
  {
    MergeKeysPreserved();
    KeyedMergeKeys(lower.containers, higher.containers, ContainerName, MergeContainer, n);
    KeyedMergeKeys(lower.initContainers, higher.initContainers, ContainerName, MergeContainer, n);
    KeyedMergeKeys(lower.volumes, higher.volumes, VolumeName, Replace, n);
  }
}

=== FILE: wrappers.dfy ===
/** Present-or-absent values: the model of a Go pointer or an unset struct field. */
module Wrappers {

  datatype Option<+T> = None | Some(value: T)
}
